=== FILE: README.md ===
# Image store: upload naming and retrieval

A model of the two HTTP handlers of a small image document store. It
covers `addImage` and `getImage` in `image/func.go`.

`addImage` takes an uploaded file. It splits the file's name at its dots
into a base name (segment 0) and an extension (segment 1). It counts the
entries of the `document_store` directory that the pattern
`name\(.+\)\..+` finds. It then stores the bytes under
`name(count).ext` and answers 200 with that key.

`getImage` reads `document_store/<image>` for the first value of the
`image` query parameter. It answers with the bytes, or maps the failure to
404 (not found), 403 (permission denied) or 500 (anything else).

The directory is a finite map from file names to byte sequences
(`Store.Store`). Operating-system failures are explicit inputs:

- `UploadEnv.listingFails` stands for a failed `os.ReadDir`.
- `WriteFault` stands for a failed `os.Create` or `io.Copy`.
- `ReadFault` stands for a permission or other error from `os.ReadFile`.

The handlers are pure functions from the store and the request to the new
store and the response.

Modules, bottom to top:

- `Strings`: Go's `strings.Split` and its inverse `Join`.
- `Decimals`: the `%d` rendering of a count and its value.
- `Filename`: segments 0 and 1 of the filename.
- `Pattern`: when the compiled pattern finds a non-empty match in a name.
- `Allocation`: the count of matching entries and the key built from it. `ParseKey` reads a key back.
- `Store`: writes with faults, and reads.
- `Handlers`: `addImage` and `getImage`.
- `Sessions`: sequences of uploads against one store.
- `Scenarios`: worked examples. Two of them are the uploads the comment at
  `image/func.go:66-67` describes. The others are the first upload of any
  name on an empty store, a longer stored base name that shifts the count,
  and single fetches.

The pattern is modelled only for base names that contain none of the
characters regular-expression syntax gives a meaning to. Such names are
called "literal" here, and for them the pattern is a plain text shape.
`Pattern.FindMatch` decides that shape with two nested loops.
`Allocation.CountEntries` runs the handler's counting loop over a listing
of distinct entry names.

The sessions reason about a "disambiguated" store. In such a store, every
name that reads back as a key built for a literal base name has a count
below that base's current match count. Names of any other shape, such as
`notes.txt`, may be present. The empty store is disambiguated
(`Sessions.EmptyStoreDisambiguated`). The property survives stray files
without `(` and uploads whose extension is non-empty and does not start
with a newline. The guarantees about runs of uploads (fresh keys, distinct
keys, contents kept) are stated for runs whose base names are all literal.

Behaviour of the code worth knowing:

- Any extension is accepted; the code checks none.
- The pattern is not anchored. An entry counts when the base name,
  directly followed by `(`, then at least one character, then `).` and at
  least one more character, occurs anywhere in it. So `bobcat(0).png`
  counts for `cat` (`Scenarios.LongerBaseShiftsCount`), and
  `catalog(0).png` does not.
- A base name with pattern syntax in it can compile to a pattern that
  does not find the name's own keys. `a+` gives `a+\(.+\)\..+`, which
  needs one or more `a` directly followed by `(` and so misses
  `a+(0).png`; in `photo (1)` the `(1)` becomes a group. On a store where
  no other entry matches `a+\(.+\)\..+` (a stored `banana(1).png` does,
  through `a(1).p`), the count stays 0 and every upload of `a+.png`
  overwrites `a+(0).png`.
- The index is the number of matching entries, whatever indices those entries carry.
- `os.Create` truncates an existing file. An upload that lands on an
  existing name overwrites it (`Sessions.EmptyExtensionReusesKey`).
- When the copy fails, the created file stays in the store with part of
  the bytes. The response is still 500.

## Model

| member | source | states |
|---|---|---|
| Strings.Split | image/func.go:36 | `strings.Split` on one separator: at least one piece; exactly one piece iff the separator is absent; no piece contains the separator |
| Strings.SplitThenJoin | image/func.go:36 | joining the pieces of a split with the separator gives back the original string |
| Strings.JoinThenSplit | image/func.go:36 | splitting the join of separator-free pieces gives back exactly those pieces |
| Strings.SplitHead | image/func.go:36-38 | with a separator present there are at least two pieces; piece 0 is the text before the first separator and piece 1 is the first piece of the rest |
| Filename.SplitFilename | image/func.go:36-38 | the filename has no segment 1 (the handler's index panics) iff it has no dot; otherwise name and extension are dot-free, the filename starts with `name.ext`, and that prefix ends the filename or is followed by a dot |
| Filename.SplitFirstSegments | image/func.go:36-38 | segments 0 and 1 of Go's split satisfy that characterisation |
| Filename.FirstSegmentsUnique | image/func.go:36-38 | the characterisation determines name and extension uniquely |
| Filename.SplitFilenameCharacterized | image/func.go:36-38 | the split yields (name, ext) iff (name, ext) are the first two dot-separated segments |
| Filename.LaterSegmentsDropped | image/func.go:36-38 | segments after the second (e.g. `a.tar.gz`) are ignored: the result is the first two segments |
| Decimals.Decimal | image/func.go:68 | the `%d` rendering is a non-empty string of digits with no leading zero unless the value is 0 |
| Decimals.ValueOfDecimal | image/func.go:68 | reading the rendered digits back gives the count |
| Decimals.DecimalInjective | image/func.go:68 | different counts render differently |
| Pattern.FindMatch | image/func.go:48-61 | the loop answers true iff the pattern `name\(.+\)\..+` (with `.` not matching a newline) has a match somewhere in the entry name |
| Pattern.Matches | image/func.go:48-58 | `FindString` returns a non-empty match; any match spans the name, both parentheses, the dot and one character on each side of `)`, so a matching entry is at least five characters longer than the name |
| Allocation.MatchCount | image/func.go:55-61 | the number of entries the pattern finds is never more than the number of entries |
| Allocation.CountZeroIff | image/func.go:55-61 | the count is zero exactly when no entry matches |
| Allocation.CountEntries | image/func.go:55-61 | the counting loop over a listing of distinct names returns the number of names the pattern finds |
| Allocation.CountAddMatching | image/func.go:55-61 | adding a new matching entry raises the count by one |
| Allocation.CountAddOther | image/func.go:55-61 | adding a non-matching entry leaves the count unchanged |
| Allocation.CountMonotone | image/func.go:55-61 | more entries never lower the count |
| Allocation.AllocateKey | image/func.go:68 | builds `name + "(" + %d(count) + ")." + ext`; its meaning is stated by the next two rows: parsing recovers the parts, and every parsed key is one it builds |
| Allocation.KeyRoundTrip | image/func.go:68 | for a base name without `(`, parsing the built key `name(count).ext` gives back name, count and extension |
| Allocation.ParseKeySound | image/func.go:68 | anything `ParseKey` accepts is exactly the key built from what it returns, with a base name free of `(` |
| Allocation.ParseCountSound | image/func.go:68 | the count-and-extension parser accepts exactly the text `count).ext` built from what it returns |
| Allocation.KeyInjective | image/func.go:68 | distinct (name, count, extension) triples with `(`-free names give distinct keys |
| Allocation.KeyMatchesIff | image/func.go:48-68 | for a dot-free name and extension, the new key is found by its own base name's pattern iff the extension is non-empty and does not start with a newline |
| Allocation.LongerBaseCounted | image/func.go:48-61 | a key built on any base name that ends in `name` is found by `name`'s pattern when its extension is usable |
| Store.WriteFile | image/func.go:71-85 | the write fails iff a fault is injected; on success the key holds the content; a failed copy leaves a prefix of the content under the key; a failed create changes nothing; other names are untouched |
| Store.ReadFile | image/func.go:105-107 | the read succeeds with the stored bytes iff there is no fault and the name exists; not-exist iff no fault and absent; permission and other errors iff injected |
| Store.ReadAfterWrite | image/func.go:71-105 | after a successful write, reading the key returns the written bytes |
| Store.ReadOtherAfterWrite | image/func.go:71-105 | a write to one key, faulty or not, does not change what a read of another key returns |
| Handlers.AddImage | image/func.go:14-92 | 400 iff the file is missing, and then the store is unchanged; the abstract `OutsideModel` answer iff the filename has a dot, the listing succeeds and the base name holds pattern syntax; it panics iff the filename has no dot; 500 iff the listing or the write fails; 200 iff the create is reached without a write fault, and then the body parses back as (name, current match count, extension) and the store maps that key to the content; no entry ever disappears |
| Handlers.UploadAllocates | image/func.go:36-91 | with no failure, a literal base name gets key `name(count).ext` for the current count; the store gains exactly that mapping and the response is 200 with that key |
| Handlers.UploadTouchesOnlyItsKey | image/func.go:71-85 | every name other than the created key keeps its presence and its contents across an upload of a literal base name |
| Handlers.StatusOf | image/func.go:107-118 | a failed read is answered with an error status, between 400 and 599, that is neither 200 nor the missing-parameter 400 |
| Handlers.StatusOfInjective | image/func.go:107-118 | not-exist, permission and other failures get three different statuses |
| Handlers.GetImage | image/func.go:95-127 | 400 iff the `image` parameter is missing; 200 with the stored bytes iff no read fault and the name exists; 404 iff no fault and absent; 403 iff permission fault; 500 iff other fault; no body except on 200 |
| Handlers.UploadThenGet | image/func.go:89-126 | after an upload answers 200 with a key, fetching that key answers 200 with exactly the uploaded bytes |
| Sessions.FreshKey | image/func.go:55-71 | in a disambiguated store, the key an upload of a literal base name passes to `os.Create` is not yet stored |
| Sessions.UploadPreserves | image/func.go:55-85 | an upload whose extension is usable keeps the store disambiguated, whatever its outcome |
| Sessions.ForeignFileKeepsInvariant | image/func.go:41-61 | adding a file whose name has no `(`, such as `notes.txt`, keeps the store disambiguated |
| Sessions.Replay | image/func.go:14-92 | running uploads one after another gives one result per upload |
| Sessions.FreshAt | image/func.go:55-71 | in a run of uploads with usable extensions and literal base names, every successful upload answers with a key the starting store did not hold |
| Sessions.FreshBefore | image/func.go:55-71 | every successful upload after the first answers with a key absent from the store just before it |
| Sessions.KeptFrom | image/func.go:71-85 | the stores along a run only gain names |
| Sessions.KeptAt | image/func.go:71-91 | a key answered by an upload stays stored for the rest of the run |
| Sessions.DistinctKeys | image/func.go:55-91 | in such a run, two different successful uploads never answer with the same key |
| Sessions.UploadKeepsStored | image/func.go:71-85 | in a disambiguated store, one upload of a literal base name, successful or failed, leaves every stored name present with the same contents |
| Sessions.StoredContentsKept | image/func.go:71-85 | a name stored before such a run keeps its contents in every store of the run |
| Sessions.ContentsKept | image/func.go:71-91 | in such a run, the file a successful upload stores holds exactly the uploaded bytes in every later store: no later upload, not even a failed one that leaves a partial file, writes to it |
| Sessions.FirstContentsKept | image/func.go:71-91 | when the first upload of such a run succeeds, its key holds exactly its bytes in every store of the run |
| Sessions.EmptyStoreDisambiguated | image/func.go:41 | an empty document store is disambiguated |
| Sessions.EmptyExtensionReusesKey | image/func.go:36-85 | uploading `name.` twice answers the same key both times, and the store ends with only the second contents under it |
| Scenarios.FirstUpload | image/func.go:65-68 | on an empty store the first upload of `name.ext` is stored alone as `name(0).ext` |
| Scenarios.FetchStored | image/func.go:105-126 | fetching a stored name answers 200 with its bytes |
| Scenarios.MissingIsNotFound | image/func.go:105-110 | fetching a name that is not stored answers 404 |
| Scenarios.LongerBaseShiftsCount | image/func.go:48-68 | with only `prefix+name(0).ext1` stored, an upload of `name.ext2` is answered with `name(1).ext2` |
| Scenarios.ExampleFirstUpload | image/func.go:66 | on an empty store `example.png` is stored as `example(0).png` |
| Scenarios.ExampleSecondUpload | image/func.go:67 | with `example(0).png` stored, the next `example.png` is stored as `example(1).png` next to it |

## Left out

- HTTP plumbing is not modelled: the 32 MB multipart limit, form parsing, logging, response headers. A failed form parse or a missing `image` file both become an absent form that answers 400.
- Routing is not modelled. `image/image.go` sends GET and POST on `/` to the two handlers. It answers 404 for any other path and 405 for any other method. `main.go` registers the routes and starts the server.
- Base names that contain regular-expression syntax characters (`\.+*?()|[]{}^$`) answer an abstract `OutsideModel` and leave the store unchanged (`Handlers.AddImage` states exactly when). The model has no regular-expression engine, so the compile error at lines 48-53 and the matches of such patterns are not modelled. Many such names compile, and the program then writes the file. For `a+` or `photo (1)` the pattern misses the name's own keys, so on a store where no other entry matches their pattern, repeated uploads overwrite `a+(0).png` or `photo (1)(0).png`. The session lemmas below therefore require literal base names.
- Concurrency is not modelled: two uploads running at once can both list the directory before either creates its file. Uploads are modelled one at a time.
- The causes of operating-system failures are inputs (`listingFails`, `WriteFault`, `ReadFault`), not derived from the file system.
- Path semantics of the name are not modelled. A key or query containing `/` or `..` is an ordinary map key here; the real handler would reach other directories.
- Strings are sequences of code points. Invalid UTF-8 in names, and how Go's pattern engine treats it, are not modelled.
- Closing the created file (the deferred `Close`) and its errors are not modelled.
- Sessions.DistinctKeys: proved only for runs in which every extension is usable (non-empty, not starting with a newline) and every base name is literal. `Sessions.EmptyExtensionReusesKey` shows that it fails for an empty extension, and on a store where no other entry matches `a+`'s pattern the program reuses `a+(0).png` for two uploads of `a+.png`.
- Sessions.ContentsKept: proved only for runs of usable extensions and literal base names; on a store where no other entry matches `a+`'s pattern, a later upload of `a+.png` overwrites the file an earlier successful `a+.png` upload stored.
- Sessions.FirstContentsKept: the same restriction and the same gap as `Sessions.ContentsKept`.
- Sessions.FreshAt: proved only for runs of usable extensions and literal base names; on a store that holds `a+(0).png` and no other entry matching `a+`'s pattern, the program answers `a+(0).png` to an upload of `a+.png`, a key the store held at the start.
- Sessions.FreshBefore: the same restriction; on a store where no other entry matches `a+`'s pattern, the program's second upload of `a+.png` answers a key already present.
- Handlers.UploadTouchesOnlyItsKey: proved only for uploads of literal base names; the program's upload of `a+.png` creates `a+(0).png` (when no other entry matches `a+`'s pattern), which the model's `OutsideModel` outcome does not.
- Sessions.UploadKeepsStored: proved only for uploads of literal base names; an upload of `a+.png` overwrites a stored `a+(0).png` when no other entry matches `a+`'s pattern.
- Sessions.StoredContentsKept: proved only for runs of literal base names; a stored `a+(0).png` loses its contents to an upload of `a+.png` when no other entry matches `a+`'s pattern.
- Handlers.GetImage: requires every value list in the query to be non-empty. `url.Values` from a parsed URL always has this form, so the case where `imageName[0]` would panic is not modelled.
- An empty filename is treated like any other filename without a dot, which panics. Go's multipart reader reports a part with no filename as a missing file, which answers 400; that layer is not modelled.

=== FILE: allocation.dfy ===
/**
 How `addImage` picks the stored name: it counts the store entries the
 name's pattern matches, across every extension, and appends that count in
 parentheses: `name + "(" + %d(count) + ")." + ext`. The count is not a
 search for the lowest free index.
 */
module Allocation {
  import opened Wrappers
  import opened Strings
  import opened Decimals
  import opened Pattern

  predicate Distinct(xs: seq<string>) {
    forall a, b | 0 <= a < b < |xs| :: xs[a] != xs[b]
  }

  function Elements(xs: seq<string>): set<string> {
    set x | x in xs
  }

  /** The store entries the pattern for `name` finds a match in. */
  function MatchingKeys(name: string, keys: set<string>): set<string> {
    set k | k in keys && Matches(name, k)
  }

  lemma SubsetCard(a: set<string>, b: set<string>)
    requires a <= b
    ensures |a| <= |b|
  {
    assert b == a + (b - a);
  }

  /** The number of matching entries; never more than the store holds. */
  function MatchCount(name: string, keys: set<string>): (count: nat)
    ensures count <= |keys|
  {
    SubsetCard(MatchingKeys(name, keys), keys);
    |MatchingKeys(name, keys)|
  }

  /** The count is zero exactly when no entry matches. */
  lemma CountZeroIff(name: string, keys: set<string>)
    ensures MatchCount(name, keys) == 0 <==> forall k | k in keys :: !Matches(name, k)
  {
    if k :| k in keys && Matches(name, k) {
      assert k in MatchingKeys(name, keys);
    }
  }

  /** A new entry that matches raises the count by exactly one. */
  lemma CountAddMatching(name: string, keys: set<string>, key: string)
    requires key !in keys && Matches(name, key)
    ensures MatchCount(name, keys + {key}) == MatchCount(name, keys) + 1
  {
    assert MatchingKeys(name, keys + {key}) == MatchingKeys(name, keys) + {key};
  }

  /** An entry that does not match leaves the count unchanged. */
  lemma CountAddOther(name: string, keys: set<string>, key: string)
    requires !Matches(name, key)
    ensures MatchCount(name, keys + {key}) == MatchCount(name, keys)
  {
    assert MatchingKeys(name, keys + {key}) == MatchingKeys(name, keys);
  }

  /** A store that only grows never sees the count fall. */
  lemma CountMonotone(name: string, keys: set<string>, more: set<string>)
    requires keys <= more
    ensures MatchCount(name, keys) <= MatchCount(name, more)
  {
    SubsetCard(MatchingKeys(name, keys), MatchingKeys(name, more));
  }

  /**
   The handler's loop over the directory listing: `count` goes up by one for
   every entry the pattern matches. A directory lists each name once, so the
   result is the number of matching entries of the store.
   */
  method CountEntries(name: string, listing: seq<string>) returns (count: nat)
    requires Distinct(listing)
    ensures count == MatchCount(name, Elements(listing))
  {
    count := 0;
    for i := 0 to |listing|
      invariant count == MatchCount(name, Elements(listing[..i]))
    {
      var hit := FindMatch(name, listing[i]);
      assert Elements(listing[..i + 1]) == Elements(listing[..i]) + {listing[i]} by {
        assert listing[..i + 1] == listing[..i] + [listing[i]];
      }
      if hit {
        CountAddMatching(name, Elements(listing[..i]), listing[i]);
        count := count + 1;
      } else {
        CountAddOther(name, Elements(listing[..i]), listing[i]);
      }
    }
    assert listing[..|listing|] == listing;
  }

  /** The stored name built from the base name, the count and the extension. */
  function AllocateKey(name: string, count: nat, ext: string): string {
    name + "(" + Decimal(count) + ")." + ext
  }

  datatype KeyParts = KeyParts(name: string, count: nat, ext: string)

  /** A run of digits exactly as `%d` would print it. */
  predicate CanonicalDecimal(s: string) {
    |s| > 0 && AllDigits(s) && Decimal(Value(s)) == s
  }

  /**
   Reads a stored name back as base, count and extension: the base runs up
   to the first "(", the count is the canonical decimal up to the next ")",
   and "." separates it from the extension.
   */
  function ParseKey(key: string): Option<KeyParts> {
    if '(' !in key then None
    else
      var p := IndexOf(key, '(');
      ParseCount(key[..p], key[p + 1..])
  }

  function ParseCount(name: string, rest: string): Option<KeyParts> {
    if ')' !in rest then None
    else
      var q := IndexOf(rest, ')');
      ParseExt(name, rest[..q], rest[q + 1..])
  }

  function ParseExt(name: string, digits: string, tail: string): Option<KeyParts> {
    if CanonicalDecimal(digits) && |tail| > 0 && tail[0] == '.'
    then Some(KeyParts(name, Value(digits), tail[1..]))
    else None
  }

  /** A base name without "(" can be recovered from the key built for it. */
  lemma KeyRoundTrip(name: string, count: nat, ext: string)
    requires '(' !in name
    ensures ParseKey(AllocateKey(name, count, ext)) == Some(KeyParts(name, count, ext))
  {
    var d := Decimal(count);
    var rest := d + [')'] + ("." + ext);
    var key := AllocateKey(name, count, ext);
    assert key == name + ['('] + rest;
    IndexOfAfter(name, '(', rest);
    assert key[..|name|] == name;
    assert key[|name| + 1..] == rest;
    CountRoundTrip(name, count, ext);
  }

  lemma CountRoundTrip(name: string, count: nat, ext: string)
    ensures ParseCount(name, Decimal(count) + [')'] + ("." + ext)) == Some(KeyParts(name, count, ext))
  {
    var d := Decimal(count);
    var rest := d + [')'] + ("." + ext);
    assert ')' !in d by {
      forall k | 0 <= k < |d| ensures d[k] != ')' { assert IsDigit(d[k]); }
    }
    IndexOfAfter(d, ')', "." + ext);
    assert rest[..|d|] == d;
    assert rest[|d| + 1..] == "." + ext;
    ValueOfDecimal(count);
    assert ("." + ext)[1..] == ext;
  }

  /** Every key the parser accepts is one `AllocateKey` builds. */
  lemma {:induction false} ParseKeySound(key: string)
    requires ParseKey(key).Some?
    ensures '(' !in ParseKey(key).value.name
    ensures AllocateKey(ParseKey(key).value.name, ParseKey(key).value.count, ParseKey(key).value.ext) == key
  {
    var p := IndexOf(key, '(');
    var name := key[..p];
    var rest := key[p + 1..];
    assert ParseKey(key) == ParseCount(name, rest);
    ParseCountSound(name, rest);
    var r := ParseKey(key).value;
    Reassemble(key, p);
    KeyShape(r.name, r.count, r.ext);
  }

  lemma KeyShape(name: string, count: nat, ext: string)
    ensures AllocateKey(name, count, ext) == name + "(" + (Decimal(count) + ")." + ext)
  {
    var d := Decimal(count);
    assert name + "(" + d + ")." + ext == name + "(" + (d + ")." + ext);
  }

  lemma {:induction false} ParseCountSound(name: string, rest: string)
    requires ParseCount(name, rest).Some?
    ensures var r := ParseCount(name, rest).value;
      r.name == name && Decimal(r.count) + ")." + r.ext == rest
  {
    var q := IndexOf(rest, ')');
    var digits := rest[..q];
    var tail := rest[q + 1..];
    assert ParseCount(name, rest) == ParseExt(name, digits, tail);
    var ext := tail[1..];
    assert Decimal(Value(digits)) == digits;
    Reassemble(rest, q);
    assert rest == digits + [')'] + tail;
    Reassemble(tail, 0);
    assert tail == ['.'] + ext;
    DotShape(digits, ext);
  }

  lemma DotShape(d: string, e: string)
    ensures d + ")." + e == d + [')'] + (['.'] + e)
  {
  }

  /** Keys for bases without "(" collide only when base, count and extension agree. */
  lemma KeyInjective(n1: string, c1: nat, e1: string, n2: string, c2: nat, e2: string)
    requires '(' !in n1 && '(' !in n2
    requires AllocateKey(n1, c1, e1) == AllocateKey(n2, c2, e2)
    ensures n1 == n2 && c1 == c2 && e1 == e2
  {
    KeyRoundTrip(n1, c1, e1);
    KeyRoundTrip(n2, c2, e2);
  }

  /** An extension that satisfies the pattern's trailing `.+`. */
  predicate UsableExtension(ext: string) {
    |ext| > 0 && ext[0] != '\n'
  }

  /**
   The key just built matches its own base name's pattern exactly when the
   extension is non-empty and does not start with a newline.
   */
  lemma KeyMatchesIff(name: string, count: nat, ext: string)
    requires '.' !in name && '.' !in ext
    ensures Matches(name, AllocateKey(name, count, ext)) <==> UsableExtension(ext)
  {
    var d := Decimal(count);
    var key := AllocateKey(name, count, ext);
    var dot := |name| + |d| + 2;
    assert key[dot] == '.';
    if UsableExtension(ext) {
      assert NoNewline(d) by {
        forall k | 0 <= k < |d| ensures d[k] != '\n' { assert IsDigit(d[k]); }
      }
      assert key[|name| + 1..dot - 1] == d;
      assert MatchAt(name, key, 0, dot - 1);
    }
  }

  /**
   The pattern is unanchored, so an entry whose base merely ends in `name`
   (a longer base name) matches too, whatever its extension.
   */
  lemma LongerBaseCounted(prefix: string, name: string, count: nat, ext: string)
    requires UsableExtension(ext)
    ensures Matches(name, AllocateKey(prefix + name, count, ext))
  {
    var d := Decimal(count);
    var key := AllocateKey(prefix + name, count, ext);
    var p := |prefix| + |name|;
    assert NoNewline(d) by {
      forall k | 0 <= k < |d| ensures d[k] != '\n' { assert IsDigit(d[k]); }
    }
    assert key[|prefix|..p] == name;
    assert key[p + 1..p + 1 + |d|] == d;
    assert MatchAt(name, key, |prefix|, p + 1 + |d|);
  }
}

=== FILE: decimals.dfy ===
/**
 The decimal rendering Go's `fmt` verb `%d` produces for a non-negative
 integer, and the value a run of decimal digits denotes.
 */
module Decimals {

  predicate IsDigit(c: char) {
    '0' <= c <= '9'
  }

  predicate AllDigits(s: string) {
    forall k | 0 <= k < |s| :: IsDigit(s[k])
  }

  function DigitChar(d: nat): (c: char)
    requires d < 10
    ensures IsDigit(c)
  {
    "0123456789"[d]
  }

  function DigitValue(c: char): (d: nat)
    requires IsDigit(c)
    ensures d < 10
  {
    (c as int) - ('0' as int)
  }

  /** `%d` of `n`: at least one digit, and no leading zero unless `n` is 0. */
  function Decimal(n: nat): (s: string)
    ensures |s| >= 1 && AllDigits(s)
    ensures s[0] == '0' ==> n == 0
    decreases n
  {
    if n < 10 then [DigitChar(n)] else Decimal(n / 10) + [DigitChar(n % 10)]
  }

  /** The number a digit string denotes (the empty string denotes 0). */
  function Value(s: string): nat
    requires AllDigits(s)
    decreases |s|
  {
    if |s| == 0 then 0 else Value(s[..|s| - 1]) * 10 + DigitValue(s[|s| - 1])
  }

  /** Reading back the rendering of `n` gives `n`. */
  lemma {:induction false} ValueOfDecimal(n: nat)
    ensures Value(Decimal(n)) == n
    decreases n
  {
    var s := Decimal(n);
    if n < 10 {
      assert s[..0] == [];
    } else {
      ValueOfDecimal(n / 10);
      assert s[..|s| - 1] == Decimal(n / 10);
    }
  }

  /** Distinct numbers render as distinct strings. */
  lemma DecimalInjective(m: nat, n: nat)
    requires Decimal(m) == Decimal(n)
    ensures m == n
  {
    ValueOfDecimal(m);
    ValueOfDecimal(n);
  }
}

=== FILE: filename.dfy ===
/**
 How `addImage` takes an uploaded filename apart: it splits on "." and keeps
 segment 0 as the name and segment 1 as the extension. Later segments are
 dropped; a filename without a dot has no segment 1 and the handler panics
 with an index out of range.
 */
module Filename {
  import opened Wrappers
  import opened Strings

  datatype NameParts = NameParts(name: string, ext: string)

  /** The only way the split fails: there is no segment 1 to index. */
  datatype SplitError = NoSegmentOne

  /**
   `name` is the text before the first dot of `filename` and `ext` the text
   between that dot and the next one (or the end).
   */
  predicate FirstSegments(filename: string, name: string, ext: string) {
    var e := |name| + 1 + |ext|;
    && '.' !in name && '.' !in ext
    && e <= |filename|
    && filename[..e] == name + "." + ext
    && (e == |filename| || filename[e] == '.')
  }

  function SplitFilename(filename: string): (r: Result<NameParts, SplitError>)
    ensures r.Failure? <==> '.' !in filename
    ensures r.Success? ==> FirstSegments(filename, r.value.name, r.value.ext)
  {
    var segments := Split(filename, '.');
    if |segments| < 2 then Failure(NoSegmentOne)
    else
      SplitFirstSegments(filename);
      Success(NameParts(segments[0], segments[1]))
  }

  lemma {:induction false} SplitFirstSegments(filename: string)
    requires '.' in filename
    ensures FirstSegments(filename, Split(filename, '.')[0], Split(filename, '.')[1])
  {
    SplitHead(filename, '.');
    var i := IndexOf(filename, '.');
    var rest := filename[i + 1..];
    var name := Split(filename, '.')[0];
    var ext := Split(filename, '.')[1];
    var k := if '.' in rest then IndexOf(rest, '.') else |rest|;
    assert ext == rest[..k] by {
      SplitHead(filename, '.');
      if '.' in rest {
        SplitHead(rest, '.');
      }
    }
    assert name == filename[..i];
    PrefixDotPrefix(filename, i, k);
  }

  lemma PrefixDotPrefix(s: string, i: nat, k: nat)
    requires i < |s| && s[i] == '.' && '.' !in s[..i]
    requires i + 1 + k <= |s| && '.' !in s[i + 1..][..k]
    requires i + 1 + k == |s| || s[i + 1 + k] == '.'
    ensures FirstSegments(s, s[..i], s[i + 1..][..k])
  {
    var e := i + 1 + k;
    assert s[i + 1..][..k] == s[i + 1..e];
    assert s[..e] == s[..i] + s[i..i + 1] + s[i + 1..e];
  }

  /** A dot-free prefix that ends at a dot (or at the end) is the text before the first dot. */
  lemma DotFreePrefixUnique(s: string, a: string, b: string)
    requires '.' !in a && '.' !in b
    requires |a| <= |s| && s[..|a|] == a && (|a| == |s| || s[|a|] == '.')
    requires |b| <= |s| && s[..|b|] == b && (|b| == |s| || s[|b|] == '.')
    ensures a == b
  {
  }

  /** The first two segments are determined by the filename. */
  lemma FirstSegmentsUnique(filename: string, n1: string, e1: string, n2: string, e2: string)
    requires FirstSegments(filename, n1, e1) && FirstSegments(filename, n2, e2)
    ensures n1 == n2 && e1 == e2
  {
    assert filename[..|n1|] == n1 && filename[|n1|] == '.';
    assert filename[..|n2|] == n2 && filename[|n2|] == '.';
    DotFreePrefixUnique(filename, n1, n2);
    var tail := filename[|n1| + 1..];
    assert tail[..|e1|] == e1 && tail[..|e2|] == e2;
    DotFreePrefixUnique(tail, e1, e2);
  }

  /**
   The split is exactly "segment before the first dot, segment after it":
   it succeeds with (`name`, `ext`) precisely when those are the first two
   dot-separated segments of `filename`.
   */
  lemma SplitFilenameCharacterized(filename: string, name: string, ext: string)
    ensures SplitFilename(filename) == Success(NameParts(name, ext))
            <==> FirstSegments(filename, name, ext)
  {
    if FirstSegments(filename, name, ext) {
      assert filename[|name|] == '.';
      var r := SplitFilename(filename);
      FirstSegmentsUnique(filename, name, ext, r.value.name, r.value.ext);
    }
  }

  /** Segments after the second dot do not influence the result. */
  lemma {:induction false} LaterSegmentsDropped(name: string, ext: string, more: seq<string>)
    requires '.' !in name && '.' !in ext
    requires forall k | 0 <= k < |more| :: '.' !in more[k]
    ensures SplitFilename(Join([name, ext] + more, '.')) == Success(NameParts(name, ext))
  {
    var parts := [name, ext] + more;
    assert forall k | 0 <= k < |parts| :: '.' !in parts[k] by {
      forall k | 0 <= k < |parts| ensures '.' !in parts[k] {
        if k >= 2 { assert parts[k] == more[k - 2]; }
      }
    }
    JoinThenSplit(parts, '.');
  }
}

=== FILE: handlers.dfy ===
/**
 The two HTTP handlers with the transport stripped away. `AddImage` is the
 upload path of `addImage` from the point where the multipart form has been
 parsed; `GetImage` is `getImage` from the point where the query string has
 been parsed. Operating-system failures arrive as inputs.
 */
module Handlers {
  import opened Wrappers
  import opened Filename
  import opened Pattern
  import opened Allocation
  import opened Store

  const StatusOK: int := 200
  const StatusBadRequest: int := 400
  const StatusForbidden: int := 403
  const StatusNotFound: int := 404
  const StatusInternalServerError: int := 500

  datatype Payload = NoBody | KeyText(key: string) | Content(data: seq<byte>)

  datatype Response =
    | Reply(status: int, body: Payload)
      /** The handler panicked (a filename without a dot); no reply is written. */
    | Panicked
      /** The base name holds a regular-expression metacharacter: the regex
          engine's verdict on it is not part of this model. */
    | OutsideModel

  /** The uploaded file as `r.FormFile("image")` hands it over. */
  datatype FormFile = FormFile(filename: string, content: seq<byte>)

  /** The operating system's answers during an upload. */
  datatype UploadEnv = UploadEnv(listingFails: bool, write: WriteFault)

  datatype UploadResult = UploadResult(store: Store, response: Response)

  /** The key an upload with these name parts receives from the current store. */
  function KeyFor(keys: set<string>, parts: NameParts): string {
    AllocateKey(parts.name, MatchCount(parts.name, keys), parts.ext)
  }

  /**
   An upload of a literal base name reaches `os.Create` exactly when this
   holds; other base names end at `OutsideModel`.
   */
  predicate ReachesCreate(form: Option<FormFile>, env: UploadEnv) {
    && form.Some?
    && SplitFilename(form.value.filename).Success?
    && !env.listingFails
    && Literal(SplitFilename(form.value.filename).value.name)
  }

  /** A file whose base name, when it has one, is literal. */
  predicate LiteralUpload(form: Option<FormFile>) {
    form.Some? && SplitFilename(form.value.filename).Success? ==>
      Literal(SplitFilename(form.value.filename).value.name)
  }

  /** The key `os.Create` is called with. */
  function Target(keys: set<string>, form: Option<FormFile>, env: UploadEnv): string
    requires ReachesCreate(form, env)
  {
    KeyFor(keys, SplitFilename(form.value.filename).value)
  }

  /**
   `addImage`: a missing file gives 400; a filename without a dot panics;
   a failed directory listing gives 500; otherwise the count of matching
   entries picks the key, the contents are written under it, and the key
   is returned with 200 (or 500 when the write fails).
   */
  function AddImage(store: Store, form: Option<FormFile>, env: UploadEnv): (r: UploadResult)
    ensures form.None? ==> r.store == store
    ensures r.response == Reply(StatusBadRequest, NoBody) <==> form.None?
    ensures r.response.OutsideModel?
            <==> form.Some? && '.' in form.value.filename && !env.listingFails
                 && !Literal(SplitFilename(form.value.filename).value.name)
    ensures r.response.Panicked? <==> form.Some? && '.' !in form.value.filename
    ensures !ReachesCreate(form, env) ==> r.store == store
    ensures r.response == Reply(StatusInternalServerError, NoBody)
            <==> form.Some? && '.' in form.value.filename
                 && (env.listingFails || (ReachesCreate(form, env) && env.write != NoWriteFault))
    ensures r.response.Reply? && r.response.status == StatusOK
            <==> ReachesCreate(form, env) && env.write == NoWriteFault
    ensures r.response.Reply? && r.response.status == StatusOK ==>
              var parts := SplitFilename(form.value.filename).value;
              && r.response.body.KeyText?
              && ParseKey(r.response.body.key) == Some(KeyParts(parts.name, MatchCount(parts.name, store.Keys), parts.ext))
              && r.store == store[r.response.body.key := form.value.content]
    ensures store.Keys <= r.store.Keys
  {
    match form
    case None => UploadResult(store, Reply(StatusBadRequest, NoBody))
    case Some(file) =>
      match SplitFilename(file.filename)
      case Failure(_) => UploadResult(store, Panicked)
      case Success(parts) =>
        if env.listingFails then UploadResult(store, Reply(StatusInternalServerError, NoBody))
        else if !Literal(parts.name) then UploadResult(store, OutsideModel)
        else
          var key := KeyFor(store.Keys, parts);
          var w := WriteFile(store, key, file.content, env.write);
          LiteralHasNoParen(parts.name);
          KeyRoundTrip(parts.name, MatchCount(parts.name, store.Keys), parts.ext);
          if w.failed then UploadResult(w.store, Reply(StatusInternalServerError, NoBody))
          else UploadResult(w.store, Reply(StatusOK, KeyText(key)))
  }

  lemma LiteralHasNoParen(name: string)
    requires Literal(name)
    ensures '(' !in name && '.' !in name
  {
    assert MetaChars[5] == '(' && MetaChars[1] == '.';
  }

  /**
   An upload whose filename splits into a literal base name and an
   extension, with no operating-system failure, is stored under
   `name + "(" + count + ")." + ext` and answered with that key.
   */
  lemma UploadAllocates(store: Store, file: FormFile, name: string, ext: string)
    requires SplitFilename(file.filename) == Success(NameParts(name, ext))
    requires Literal(name)
    ensures var key := AllocateKey(name, MatchCount(name, store.Keys), ext);
      AddImage(store, Some(file), UploadEnv(false, NoWriteFault))
        == UploadResult(store[key := file.content], Reply(StatusOK, KeyText(key)))
  {
  }

  /**
   An upload of a literal base name changes at most the one file it
   creates; every other entry is untouched.
   */
  lemma UploadTouchesOnlyItsKey(store: Store, form: Option<FormFile>, env: UploadEnv, other: string)
    requires LiteralUpload(form)
    requires ReachesCreate(form, env) ==> other != Target(store.Keys, form, env)
    ensures var r := AddImage(store, form, env);
      (other in r.store <==> other in store) && (other in store ==> r.store[other] == store[other])
  {
  }

  /** Each value of the query key, as `url.Values` holds it, is a non-empty list. */
  predicate WellFormedQuery(query: map<string, seq<string>>) {
    forall k | k in query :: |query[k]| > 0
  }

  /**
   The status `getImage` answers a failed read with: an error status that
   is neither success nor the missing-parameter 400.
   */
  function StatusOf(e: FsError): (status: int)
    ensures 400 <= status < 600
    ensures status != StatusOK && status != StatusBadRequest
  {
    match e
    case NotExist => StatusNotFound
    case Permission => StatusForbidden
    case Other => StatusInternalServerError
  }

  /** Different read failures get different statuses, so a client can tell them apart. */
  lemma StatusOfInjective(a: FsError, b: FsError)
    requires StatusOf(a) == StatusOf(b)
    ensures a == b
  {
  }

  /**
   `getImage`: without an `image` query parameter 400; otherwise the first
   value names the file, and its contents come back with 200, or the read
   failure is answered with 404, 403 or 500.
   */
  function GetImage(store: Store, query: map<string, seq<string>>, fault: ReadFault): (r: Response)
    requires WellFormedQuery(query)
    ensures r.Reply?
    ensures r.status == StatusBadRequest <==> "image" !in query
    ensures r.status == StatusOK <==> "image" in query && fault == NoReadFault && query["image"][0] in store
    ensures r.status == StatusOK ==> r.body == Content(store[query["image"][0]])
    ensures r.status == StatusNotFound <==> "image" in query && fault == NoReadFault && query["image"][0] !in store
    ensures r.status == StatusForbidden <==> "image" in query && fault == PermissionFault
    ensures r.status == StatusInternalServerError <==> "image" in query && fault == OtherFault
    ensures r.status != StatusOK ==> r.body == NoBody
  {
    if "image" !in query then Reply(StatusBadRequest, NoBody)
    else
      match ReadFile(store, query["image"][0], fault)
      case Success(data) => Reply(StatusOK, Content(data))
      case Failure(e) => Reply(StatusOf(e), NoBody)
  }

  /** After an upload answers 200 with a key, fetching that key returns exactly the uploaded bytes. */
  lemma UploadThenGet(store: Store, file: FormFile, env: UploadEnv)
    requires AddImage(store, Some(file), env).response.Reply?
    requires AddImage(store, Some(file), env).response.status == StatusOK
    ensures var r := AddImage(store, Some(file), env);
      GetImage(r.store, map["image" := [r.response.body.key]], NoReadFault) == Reply(StatusOK, Content(file.content))
  {
  }
}

=== FILE: pattern.dfy ===
/**
 The pattern `addImage` compiles from the uploaded name, `name + \(.+\)\..+`,
 searched unanchored with `FindString`. For a name free of regular-expression
 metacharacters the pattern reads literally: somewhere in the entry `name`
 is followed by "(", one or more characters, ")", "." and one or more
 characters. Go's `.` does not match a newline.
 */
module Pattern {

  /** The characters Go's `regexp.QuoteMeta` escapes. */
  const MetaChars: string := "\\.+*?()|[]{}^$"

  /** `name` compiles to a pattern that matches itself literally. */
  predicate Literal(name: string) {
    forall k | 0 <= k < |name| :: name[k] !in MetaChars
  }

  predicate NoNewline(s: string) {
    forall k | 0 <= k < |s| :: s[k] != '\n'
  }

  /**
   A match of the pattern in `s` in which `name` starts at `i` and the
   closing parenthesis sits at `j`. The group `s[i + |name| + 1..j]` is the
   first `.+`; the second `.+` needs at least the one character at `j + 2`.
   */
  predicate MatchAt(name: string, s: string, i: int, j: int) {
    var p := i + |name|;
    && 0 <= i && p + 1 < j && j + 2 < |s|
    && s[i..p] == name && s[p] == '('
    && NoNewline(s[p + 1..j])
    && s[j] == ')' && s[j + 1] == '.' && s[j + 2] != '\n'
  }

  /**
   `FindString` returns a non-empty match. Any match spans `name`, both
   parentheses, the dot and one character on each side of `)`, so a
   matching entry is at least five characters longer than `name`.
   */
  predicate Matches(name: string, s: string)
    ensures Matches(name, s) ==> |s| >= |name| + 5
  {
    exists i, j | 0 <= i < |s| && 0 <= j < |s| :: MatchAt(name, s, i, j)
  }

  /**
   The search `FindString` performs, as a left-to-right scan: for each start
   where `name(` occurs, walk the newline-free run after the "(" looking for
   a ")" followed by "." and a non-newline character.
   */
  method FindMatch(name: string, s: string) returns (found: bool)
    ensures found <==> Matches(name, s)
  {
    var i := 0;
    while i + |name| < |s|
      invariant 0 <= i
      invariant forall i', j | 0 <= i' < i && 0 <= j < |s| :: !MatchAt(name, s, i', j)
    {
      var p := i + |name|;
      if s[i..p] == name && s[p] == '(' {
        var j := p + 1;
        while j < |s| && s[j] != '\n'
          invariant p + 1 <= j <= |s|
          invariant NoNewline(s[p + 1..j])
          invariant forall j' | 0 <= j' < j :: !MatchAt(name, s, i, j')
        {
          if s[j] == ')' && p + 1 < j && j + 2 < |s| && s[j + 1] == '.' && s[j + 2] != '\n' {
            assert MatchAt(name, s, i, j);
            return true;
          }
          assert s[p + 1..j + 1] == s[p + 1..j] + [s[j]];
          j := j + 1;
        }
        forall j' | j <= j' < |s|
          ensures !MatchAt(name, s, i, j')
        {
          if j' > j && j' < |s| {
            assert s[p + 1..j'][j - (p + 1)] == s[j];
          }
        }
      }
      i := i + 1;
    }
    forall i', j | i <= i' < |s| && 0 <= j < |s|
      ensures !MatchAt(name, s, i', j)
    {
    }
    return false;
  }
}

=== FILE: scenarios.dfy ===
/**
 Worked examples. The two uploads the comment above the key construction
 in `addImage` describes: the first upload of `example.png` is stored as
 `example(0).png`, the next as `example(1).png`. Around them: the first
 upload of any name on an empty store, a longer stored base name that
 shifts the count, and single fetches.
 */
module Scenarios {
  import opened Wrappers
  import opened Filename
  import opened Pattern
  import opened Allocation
  import opened Store
  import opened Handlers

  lemma SplitsAt(name: string, ext: string)
    requires '.' !in name && '.' !in ext
    ensures SplitFilename(name + "." + ext) == Success(NameParts(name, ext))
  {
    var filename := name + "." + ext;
    assert filename[..|filename|] == filename;
    SplitFilenameCharacterized(filename, name, ext);
  }

  /** On an empty store the first upload of a base name gets count 0. */
  lemma FirstUpload(name: string, ext: string, content: seq<byte>)
    requires Literal(name) && '.' !in ext
    ensures var key := AllocateKey(name, 0, ext);
      AddImage(map[], Some(FormFile(name + "." + ext, content)), UploadEnv(false, NoWriteFault))
        == UploadResult(map[key := content], Reply(StatusOK, KeyText(key)))
  {
    var empty: Store := map[];
    assert MatchingKeys(name, empty.Keys) == {};
    SplitsAt(name, ext);
    UploadAllocates(empty, FormFile(name + "." + ext, content), name, ext);
    assert empty[AllocateKey(name, 0, ext) := content] == map[AllocateKey(name, 0, ext) := content];
  }

  lemma FetchStored(store: Store, key: string)
    requires key in store
    ensures GetImage(store, map["image" := [key]], NoReadFault) == Reply(StatusOK, Content(store[key]))
  {
  }

  /** A file name that was never stored is answered with 404. */
  lemma MissingIsNotFound(store: Store, key: string)
    requires key !in store
    ensures GetImage(store, map["image" := [key]], NoReadFault) == Reply(StatusNotFound, NoBody)
  {
  }

  /**
   The pattern is not anchored at the start of the entry: with
   `bobcat(0).png` stored, an upload of `cat.jpg` counts it and is stored
   as `cat(1).jpg`.
   */
  lemma LongerBaseShiftsCount(prefix: string, name: string, ext1: string, ext2: string,
                              store: Store, content: seq<byte>)
    requires Literal(name) && '.' !in ext2 && UsableExtension(ext1)
    requires store.Keys == {AllocateKey(prefix + name, 0, ext1)}
    ensures AddImage(store, Some(FormFile(name + "." + ext2, content)), UploadEnv(false, NoWriteFault)).response
            == Reply(StatusOK, KeyText(AllocateKey(name, 1, ext2)))
  {
    LiteralHasNoParen(name);
    var other := AllocateKey(prefix + name, 0, ext1);
    var empty: set<string> := {};
    assert MatchingKeys(name, empty) == {};
    LongerBaseCounted(prefix, name, 0, ext1);
    CountAddMatching(name, empty, other);
    assert store.Keys == empty + {other};
    assert MatchCount(name, store.Keys) == 1;
    SplitsAt(name, ext2);
    UploadAllocates(store, FormFile(name + "." + ext2, content), name, ext2);
  }

  lemma ExampleSplit()
    ensures "example.png" == "example" + "." + "png"
    ensures Literal("example") && UsableExtension("png") && '.' !in "png"
  {
  }

  lemma ExampleKeys()
    ensures AllocateKey("example", 0, "png") == "example(0).png"
    ensures AllocateKey("example", 1, "png") == "example(1).png"
  {
  }


  /** On an empty store the upload of `example.png` is stored as `example(0).png`. */
  lemma ExampleFirstUpload(content: seq<byte>)
    ensures AddImage(map[], Some(FormFile("example.png", content)), UploadEnv(false, NoWriteFault))
            == UploadResult(map["example(0).png" := content], Reply(StatusOK, KeyText("example(0).png")))
  {
    ExampleSplit();
    ExampleKeys();
    FirstUpload("example", "png", content);
  }

  /** With `example(0).png` stored, the next upload of `example.png` is stored as `example(1).png`. */
  lemma ExampleSecondUpload(content: seq<byte>, first: seq<byte>)
    ensures AddImage(map["example(0).png" := first], Some(FormFile("example.png", content)), UploadEnv(false, NoWriteFault))
            == UploadResult(map["example(0).png" := first, "example(1).png" := content], Reply(StatusOK, KeyText("example(1).png")))
  {
    var name: string, ext: string := "example", "png";
    ExampleSplit();
    ExampleKeys();
    assert [] + name == name;
    LongerBaseShiftsCount([], name, ext, ext, map["example(0).png" := first], content);
  }
}

=== FILE: sessions.dfy ===
/**
 Uploads run one after another against the same store. When every upload
 has a literal base name and an extension that satisfies the pattern's
 trailing `.+`, the count a base name sees grows with each of its uploads,
 so none of those uploads lands on an existing file. With an empty
 extension the new file is invisible to its own pattern and the next
 upload of the same filename overwrites it. A base name such as `a+` is
 outside the model: its pattern does not find its own key either, so the
 program overwrites there too.
 */
module Sessions {
  import opened Wrappers
  import opened Filename
  import opened Pattern
  import opened Allocation
  import opened Store
  import opened Handlers

  /**
   Every stored name that reads back as a key built for a literal base name
   has a count below the number of entries that base's pattern matches now.
   Other names, such as `notes.txt`, may be present.
   */
  predicate Disambiguated(store: Store) {
    forall k {:trigger Allocated(store, k)} | k in store :: Allocated(store, k)
  }

  /**
   When `k` reads back as a key built for a literal base name, its count lies
   below that base's current count. Names of any other shape are unconstrained.
   */
  predicate Allocated(store: Store, k: string) {
    ParseKey(k).Some? && Literal(ParseKey(k).value.name) ==>
      ParseKey(k).value.count < MatchCount(ParseKey(k).value.name, store.Keys)
  }

  /** A file whose extension, when it has one, is non-empty and does not start with a newline. */
  predicate UsableUpload(form: Option<FormFile>) {
    form.Some? && SplitFilename(form.value.filename).Success? ==>
      UsableExtension(SplitFilename(form.value.filename).value.ext)
  }

  /** An empty document store is disambiguated. */
  lemma EmptyStoreDisambiguated()
    ensures Disambiguated(map[])
  {
  }

  /** In a disambiguated store the key an upload creates is not there yet. */
  lemma FreshKey(store: Store, form: Option<FormFile>, env: UploadEnv)
    requires Disambiguated(store) && ReachesCreate(form, env)
    ensures Target(store.Keys, form, env) !in store
  {
    var parts := SplitFilename(form.value.filename).value;
    var count := MatchCount(parts.name, store.Keys);
    var key := Target(store.Keys, form, env);
    LiteralHasNoParen(parts.name);
    KeyRoundTrip(parts.name, count, parts.ext);
    StoredAllocated(store, key);
  }

  lemma StoredAllocated(store: Store, k: string)
    requires Disambiguated(store)
    ensures k in store ==> Allocated(store, k)
  {
  }

  /** Every upload with a usable extension keeps the store disambiguated. */
  lemma UploadPreserves(store: Store, form: Option<FormFile>, env: UploadEnv)
    requires Disambiguated(store) && UsableUpload(form)
    ensures Disambiguated(AddImage(store, form, env).store)
  {
    var r := AddImage(store, form, env);
    if ReachesCreate(form, env) && !env.write.CreateFault? {
      var parts := SplitFilename(form.value.filename).value;
      var count := MatchCount(parts.name, store.Keys);
      var key := Target(store.Keys, form, env);
      FreshKey(store, form, env);
      LiteralHasNoParen(parts.name);
      KeyMatchesIff(parts.name, count, parts.ext);
      CountAddMatching(parts.name, store.Keys, key);
      assert r.store.Keys == store.Keys + {key};
      forall k | k in r.store
        ensures Allocated(r.store, k)
      {
        if k == key {
          KeyRoundTrip(parts.name, count, parts.ext);
        } else if ParseKey(k).Some? {
          StoredAllocated(store, k);
          CountMonotone(ParseKey(k).value.name, store.Keys, r.store.Keys);
        }
      }
    }
  }

  datatype Upload = Upload(form: Option<FormFile>, env: UploadEnv)

  /** The results of running the uploads in order, each on the store the previous one left. */
  function Replay(store: Store, uploads: seq<Upload>): (rs: seq<UploadResult>)
    ensures |rs| == |uploads|
    decreases |uploads|
  {
    if uploads == [] then []
    else
      var r := AddImage(store, uploads[0].form, uploads[0].env);
      [r] + Replay(r.store, uploads[1..])
  }

  predicate Succeeded(r: UploadResult) {
    r.response.Reply? && r.response.status == StatusOK && r.response.body.KeyText?
  }

  /** Every upload of the run has a usable extension and a literal base name. */
  predicate AllUsable(uploads: seq<Upload>) {
    forall k | 0 <= k < |uploads| :: UsableUpload(uploads[k].form) && LiteralUpload(uploads[k].form)
  }

  /** One successful upload answers with a key that was absent and is now present. */
  lemma SuccessStep(store: Store, form: Option<FormFile>, env: UploadEnv)
    requires Disambiguated(store)
    requires Succeeded(AddImage(store, form, env))
    ensures AddImage(store, form, env).response.body.key !in store
  {
    FreshKey(store, form, env);
  }

  lemma TailUsable(uploads: seq<Upload>)
    requires uploads != [] && AllUsable(uploads)
    ensures AllUsable(uploads[1..])
  {
    forall k | 0 <= k < |uploads[1..]|
      ensures UsableUpload(uploads[1..][k].form) && LiteralUpload(uploads[1..][k].form)
    {
      assert uploads[1..][k] == uploads[k + 1];
    }
  }

  /** The `b`-th upload of a run, when it succeeds, answers with a key the run's initial store lacked. */
  lemma {:induction false} FreshAt(store: Store, uploads: seq<Upload>, b: nat)
    requires Disambiguated(store) && AllUsable(uploads)
    requires b < |uploads| && Succeeded(Replay(store, uploads)[b])
    ensures Replay(store, uploads)[b].response.body.key !in store
    decreases b
  {
    var r := AddImage(store, uploads[0].form, uploads[0].env);
    var tail := Replay(r.store, uploads[1..]);
    ReplayUnfold(store, uploads);
    if b == 0 {
      SuccessStep(store, uploads[0].form, uploads[0].env);
    } else {
      UploadPreserves(store, uploads[0].form, uploads[0].env);
      TailUsable(uploads);
      FreshAt(r.store, uploads[1..], b - 1);
      assert store.Keys <= r.store.Keys;
    }
  }

  lemma ReplayUnfold(store: Store, uploads: seq<Upload>)
    requires uploads != []
    ensures var r := AddImage(store, uploads[0].form, uploads[0].env);
      && Replay(store, uploads)[0] == r
      && forall b | 0 < b < |uploads| :: Replay(store, uploads)[b] == Replay(r.store, uploads[1..])[b - 1]
  {
  }

  /** The first result of a run is the first upload on the starting store. */
  lemma ReplayFirst(store: Store, uploads: seq<Upload>)
    requires uploads != []
    ensures Replay(store, uploads)[0] == AddImage(store, uploads[0].form, uploads[0].env)
  {
  }

  /** Every later result of a run is a result of the rest of the run on the store the first upload left. */
  lemma ReplayLater(store: Store, uploads: seq<Upload>, b: nat)
    requires 0 < b < |uploads|
    ensures Replay(store, uploads)[b] == Replay(AddImage(store, uploads[0].form, uploads[0].env).store, uploads[1..])[b - 1]
  {
  }

  /** The key of the `a`-th upload of a run is in every store the run produces afterwards. */
  lemma {:induction false} KeptAt(store: Store, uploads: seq<Upload>, a: nat, b: nat)
    requires a < b < |uploads| && Succeeded(Replay(store, uploads)[a])
    ensures Replay(store, uploads)[a].response.body.key in Replay(store, uploads)[b - 1].store
    decreases a
  {
    var r := AddImage(store, uploads[0].form, uploads[0].env);
    if a == 0 {
      ReplayFirst(store, uploads);
      KeyStored(store, uploads[0].form, uploads[0].env);
      if b > 1 {
        ReplayLater(store, uploads, b - 1);
        KeptFrom(r.store, uploads[1..], b - 1);
      }
    } else {
      ReplayLater(store, uploads, a);
      ReplayLater(store, uploads, b - 1);
      KeptAt(r.store, uploads[1..], a - 1, b - 1);
    }
  }

  lemma KeyStored(store: Store, form: Option<FormFile>, env: UploadEnv)
    requires Succeeded(AddImage(store, form, env))
    ensures AddImage(store, form, env).response.body.key in AddImage(store, form, env).store
  {
  }

  /** Stores only grow along a run. */
  lemma {:induction false} KeptFrom(store: Store, uploads: seq<Upload>, n: nat)
    requires n <= |uploads|
    ensures n > 0 ==> store.Keys <= Replay(store, uploads)[n - 1].store.Keys
    decreases n
  {
    if n > 0 {
      var r := AddImage(store, uploads[0].form, uploads[0].env);
      var rs := Replay(store, uploads);
      assert rs == [r] + Replay(r.store, uploads[1..]);
      if n > 1 {
        KeptFrom(r.store, uploads[1..], n - 1);
      }
    }
  }

  /**
   Sequential uploads never share a key: starting from a disambiguated store
   (the empty store is one), no two successful uploads of literal base names
   answer with the same key. `ContentsKept` adds that each such file keeps
   its bytes for the rest of the run.
   */
  lemma DistinctKeys(store: Store, uploads: seq<Upload>, a: nat, b: nat)
    requires Disambiguated(store) && AllUsable(uploads)
    requires a < b < |uploads|
    requires Succeeded(Replay(store, uploads)[a]) && Succeeded(Replay(store, uploads)[b])
    ensures Replay(store, uploads)[a].response.body.key != Replay(store, uploads)[b].response.body.key
  {
    KeptAt(store, uploads, a, b);
    FreshBefore(store, uploads, b);
  }

  /** The `b`-th upload, when it succeeds, answers with a key absent from the store just before it. */
  lemma {:induction false} FreshBefore(store: Store, uploads: seq<Upload>, b: nat)
    requires Disambiguated(store) && AllUsable(uploads)
    requires 0 < b < |uploads| && Succeeded(Replay(store, uploads)[b])
    ensures Replay(store, uploads)[b].response.body.key !in Replay(store, uploads)[b - 1].store
    decreases b
  {
    var r := AddImage(store, uploads[0].form, uploads[0].env);
    var rs := Replay(store, uploads);
    var tail := Replay(r.store, uploads[1..]);
    assert rs == [r] + tail;
    UploadPreserves(store, uploads[0].form, uploads[0].env);
    TailUsable(uploads);
    if b == 1 {
      FreshAt(r.store, uploads[1..], 0);
    } else {
      FreshBefore(r.store, uploads[1..], b - 1);
    }
  }

  /** The bytes an upload sends; a request without a file sends none. */
  function Sent(u: Upload): seq<byte> {
    if u.form.Some? then u.form.value.content else []
  }

  /**
   A name already stored keeps its contents across one upload of a literal
   base name, whatever that upload's outcome.
   */
  lemma UploadKeepsStored(store: Store, form: Option<FormFile>, env: UploadEnv, k: string)
    requires Disambiguated(store) && LiteralUpload(form) && k in store
    ensures k in AddImage(store, form, env).store
    ensures AddImage(store, form, env).store[k] == store[k]
  {
    if ReachesCreate(form, env) {
      FreshKey(store, form, env);
    }
    UploadTouchesOnlyItsKey(store, form, env, k);
  }

  /** A name already stored keeps its contents through every upload of the run. */
  lemma {:induction false} StoredContentsKept(store: Store, uploads: seq<Upload>, n: nat, k: string)
    requires Disambiguated(store) && AllUsable(uploads)
    requires 0 < n <= |uploads| && k in store
    ensures k in Replay(store, uploads)[n - 1].store
    ensures Replay(store, uploads)[n - 1].store[k] == store[k]
    decreases n
  {
    var r := AddImage(store, uploads[0].form, uploads[0].env);
    ReplayUnfold(store, uploads);
    UploadKeepsStored(store, uploads[0].form, uploads[0].env, k);
    if n > 1 {
      UploadPreserves(store, uploads[0].form, uploads[0].env);
      TailUsable(uploads);
      StoredContentsKept(r.store, uploads[1..], n - 1, k);
    }
  }

  /**
   The file a successful upload stores keeps exactly the uploaded bytes in
   every later store of the run: no later upload, successful or failed,
   writes to it.
   */
  lemma {:induction false} ContentsKept(store: Store, uploads: seq<Upload>, a: nat, c: nat)
    requires Disambiguated(store) && AllUsable(uploads)
    requires a <= c < |uploads| && Succeeded(Replay(store, uploads)[a])
    ensures Replay(store, uploads)[a].response.body.key in Replay(store, uploads)[c].store
    ensures Replay(store, uploads)[c].store[Replay(store, uploads)[a].response.body.key] == Sent(uploads[a])
    decreases a
  {
    ReplayUnfold(store, uploads);
    if a == 0 {
      FirstContentsKept(store, uploads, c);
    } else {
      var r := AddImage(store, uploads[0].form, uploads[0].env);
      UploadPreserves(store, uploads[0].form, uploads[0].env);
      TailUsable(uploads);
      ContentsKept(r.store, uploads[1..], a - 1, c - 1);
    }
  }

  /** `ContentsKept` for the first upload of the run. */
  lemma FirstContentsKept(store: Store, uploads: seq<Upload>, c: nat)
    requires Disambiguated(store) && AllUsable(uploads)
    requires c < |uploads| && Succeeded(AddImage(store, uploads[0].form, uploads[0].env))
    ensures var key := AddImage(store, uploads[0].form, uploads[0].env).response.body.key;
      key in Replay(store, uploads)[c].store && Replay(store, uploads)[c].store[key] == Sent(uploads[0])
  {
    var r := AddImage(store, uploads[0].form, uploads[0].env);
    ReplayUnfold(store, uploads);
    if c > 0 {
      UploadPreserves(store, uploads[0].form, uploads[0].env);
      TailUsable(uploads);
      StoredContentsKept(r.store, uploads[1..], c, r.response.body.key);
    }
  }

  /**
   A file placed in the store by other means, under a name without "(",
   such as `notes.txt`, leaves the store disambiguated.
   */
  lemma ForeignFileKeepsInvariant(store: Store, k: string, content: seq<byte>)
    requires Disambiguated(store) && '(' !in k
    ensures Disambiguated(store[k := content])
  {
    var more := store[k := content];
    forall k' | k' in more
      ensures Allocated(more, k')
    {
      if k' != k && ParseKey(k').Some? {
        StoredAllocated(store, k');
        CountMonotone(ParseKey(k').value.name, store.Keys, more.Keys);
      }
    }
  }

  /**
   With an empty extension the stored name does not match its own pattern,
   so uploading `name + "."` twice answers the same key both times and the
   second upload replaces the first file's contents.
   */
  lemma EmptyExtensionReusesKey(store: Store, name: string, first: seq<byte>, second: seq<byte>)
    requires Literal(name)
    ensures var ok := UploadEnv(false, NoWriteFault);
      var key := AllocateKey(name, MatchCount(name, store.Keys), "");
      var r1 := AddImage(store, Some(FormFile(name + ".", first)), ok);
      var r2 := AddImage(r1.store, Some(FormFile(name + ".", second)), ok);
      && r1.response == Reply(StatusOK, KeyText(key))
      && r2.response == Reply(StatusOK, KeyText(key))
      && r2.store == store[key := second]
  {
    var filename := name + ".";
    var count := MatchCount(name, store.Keys);
    var key := AllocateKey(name, count, "");
    LiteralHasNoParen(name);
    assert FirstSegments(filename, name, "") by {
      assert filename[..|name| + 1] == name + "." + "";
    }
    SplitFilenameCharacterized(filename, name, "");
    UploadAllocates(store, FormFile(filename, first), name, "");
    var s1 := store[key := first];
    KeyMatchesIff(name, count, "");
    CountAddOther(name, store.Keys, key);
    assert s1.Keys == store.Keys + {key};
    UploadAllocates(s1, FormFile(filename, second), name, "");
    Overwrite(store, key, first, second);
  }

  lemma Overwrite(store: Store, key: string, first: seq<byte>, second: seq<byte>)
    ensures store[key := first][key := second] == store[key := second]
  {
  }
}

=== FILE: store.dfy ===
/**
 The document store: a flat directory of files, modelled as a map from
 file name to contents. Failures of the operating system are inputs: the
 model does not derive them, it only says what each one leaves behind.
 */
module Store {
  import opened Wrappers

  newtype byte = x: int | 0 <= x < 256

  type Store = map<string, seq<byte>>

  /** What the operating system does to `os.Create` and the following `io.Copy`. */
  datatype WriteFault =
    | NoWriteFault
    | CreateFault              // os.Create fails: nothing is created or truncated
    | CopyFault(written: nat)  // io.Copy fails after `written` bytes reached the file

  datatype Written = Written(store: Store, failed: bool)

  function Min(a: nat, b: nat): nat {
    if a < b then a else b
  }

  /**
   `os.Create` creates the file or truncates an existing one, and `io.Copy`
   fills it. A failed copy leaves the file holding what was written so far.
   */
  function WriteFile(store: Store, key: string, content: seq<byte>, fault: WriteFault): (w: Written)
    ensures w.failed <==> fault != NoWriteFault
    ensures !w.failed ==> key in w.store && w.store[key] == content
    ensures fault.CopyFault? ==> key in w.store && w.store[key] <= content
    ensures fault.CreateFault? ==> w.store == store
    ensures forall k | k in w.store || k in store ::
              k != key ==> k in w.store && k in store && w.store[k] == store[k]
    ensures fault != CreateFault ==> w.store.Keys == store.Keys + {key}
  {
    match fault
    case NoWriteFault => Written(store[key := content], false)
    case CreateFault => Written(store, true)
    case CopyFault(n) => Written(store[key := content[..Min(n, |content|)]], true)
  }

  /** What the operating system does to `os.ReadFile`, independent of the store. */
  datatype ReadFault = NoReadFault | PermissionFault | OtherFault

  /** The classes `getImage` tells apart with `errors.Is`. */
  datatype FsError = NotExist | Permission | Other

  /** `os.ReadFile`: the whole contents, or the class of the failure. */
  function ReadFile(store: Store, key: string, fault: ReadFault): (r: Result<seq<byte>, FsError>)
    ensures r.Success? <==> fault == NoReadFault && key in store
    ensures r.Success? ==> r.value == store[key]
    ensures r == Failure(NotExist) <==> fault == NoReadFault && key !in store
    ensures r == Failure(Permission) <==> fault == PermissionFault
    ensures r == Failure(Other) <==> fault == OtherFault
  {
    match fault
    case PermissionFault => Failure(Permission)
    case OtherFault => Failure(Other)
    case NoReadFault => if key in store then Success(store[key]) else Failure(NotExist)
  }

  /** A successful write is read back byte for byte. */
  lemma ReadAfterWrite(store: Store, key: string, content: seq<byte>)
    ensures ReadFile(WriteFile(store, key, content, NoWriteFault).store, key, NoReadFault) == Success(content)
  {
  }

  /** Writing one file does not change what reading any other file returns. */
  lemma ReadOtherAfterWrite(store: Store, key: string, content: seq<byte>, wf: WriteFault,
                            other: string, rf: ReadFault)
    requires other != key
    ensures ReadFile(WriteFile(store, key, content, wf).store, other, rf) == ReadFile(store, other, rf)
  {
  }
}

=== FILE: strings.dfy ===
/**
 Go's `strings.Split` with a one-character separator, and its inverse `Join`.
 A string with k separators splits into k + 1 pieces; the empty string splits
 into the single piece "".
 */
module Strings {

  /** Position of the first occurrence of `c` in `s`. */
  function IndexOf(s: string, c: char): (i: nat)
    requires c in s
    ensures i < |s| && s[i] == c
    ensures c !in s[..i]
  {
    if s[0] == c then 0
    else
      assert c in s[1..] by {
        var k :| 0 <= k < |s| && s[k] == c;
        assert s[1..][k - 1] == c;
      }
      var j := IndexOf(s[1..], c);
      assert s[..1 + j] == [s[0]] + s[1..][..j];
      1 + j
  }

  /** Every maximal run of characters between separators, in order. */
  function Split(s: string, sep: char): (parts: seq<string>)
    ensures |parts| >= 1
    ensures |parts| == 1 <==> sep !in s
    ensures forall k | 0 <= k < |parts| :: sep !in parts[k]
    decreases |s|
  {
    if sep in s then
      var i := IndexOf(s, sep);
      [s[..i]] + Split(s[i + 1..], sep)
    else
      [s]
  }

  /** The pieces glued back together with the separator between neighbours. */
  function Join(parts: seq<string>, sep: char): string
    requires |parts| >= 1
    decreases |parts|
  {
    if |parts| == 1 then parts[0] else parts[0] + [sep] + Join(parts[1..], sep)
  }

  /** Splitting loses nothing: joining the pieces gives back the input. */
  lemma {:induction false} SplitThenJoin(s: string, sep: char)
    ensures Join(Split(s, sep), sep) == s
    decreases |s|
  {
    if sep in s {
      var i := IndexOf(s, sep);
      var rest := s[i + 1..];
      var tail := Split(rest, sep);
      assert Split(s, sep) == [s[..i]] + tail;
      SplitThenJoin(rest, sep);
      JoinCons(s[..i], tail, sep);
      Reassemble(s, i);
    } else {
      assert Split(s, sep) == [s];
    }
  }

  lemma Reassemble(s: string, i: nat)
    requires i < |s|
    ensures s == s[..i] + [s[i]] + s[i + 1..]
  {
  }

  lemma JoinCons(head: string, tail: seq<string>, sep: char)
    requires |tail| >= 1
    ensures Join([head] + tail, sep) == head + [sep] + Join(tail, sep)
  {
    assert ([head] + tail)[1..] == tail;
  }

  /** The first separator of `a + [c] + b` is the one after `a` when `a` has none. */
  lemma {:induction false} IndexOfAfter(a: string, c: char, b: string)
    requires c !in a
    ensures c in a + [c] + b
    ensures IndexOf(a + [c] + b, c) == |a|
    decreases |a|
  {
    var s := a + [c] + b;
    assert s[|a|] == c;
    if a != [] {
      assert s[1..] == a[1..] + [c] + b;
      IndexOfAfter(a[1..], c, b);
    }
  }

  /** Joining separator-free pieces and splitting again gives back the pieces. */
  lemma {:induction false} JoinThenSplit(parts: seq<string>, sep: char)
    requires |parts| >= 1
    requires forall k | 0 <= k < |parts| :: sep !in parts[k]
    ensures Split(Join(parts, sep), sep) == parts
    decreases |parts|
  {
    if |parts| > 1 {
      var head, tail := parts[0], parts[1..];
      var rest := Join(tail, sep);
      JoinCons(head, tail, sep);
      assert [head] + tail == parts;
      var s := head + [sep] + rest;
      IndexOfAfter(head, sep, rest);
      assert s[..|head|] == head;
      assert s[|head| + 1..] == rest;
      JoinThenSplit(tail, sep);
      assert Split(s, sep) == [head] + Split(rest, sep);
    }
  }

  /** The first two pieces of a string that holds the separator. */
  lemma SplitHead(s: string, sep: char)
    requires sep in s
    ensures |Split(s, sep)| >= 2
    ensures Split(s, sep)[0] == s[..IndexOf(s, sep)]
    ensures Split(s, sep)[1] == Split(s[IndexOf(s, sep) + 1..], sep)[0]
  {
  }
}

=== FILE: wrappers.dfy ===
/** Failure-carrying result types shared by the other modules. */
module Wrappers {

  datatype Option<+T> = None | Some(value: T)

  datatype Result<+T, +E> = Success(value: T) | Failure(error: E)
}
